=== FILE: README.md ===
# Aion database factory and block transaction contexts, in Dafny

This project models two pieces of pure decision and transformation logic from the Aion
blockchain node. It proves properties about both.

**The database factory** (`DatabaseFactory`) takes a string-to-string property map and
returns a key-value database handle. It picks a vendor from `db_type`; an unknown `db_type` is
handed, unchecked, to the external driver of that name. For every built-in vendor except
the two mocks, it requires `db_name` and `db_path`. It reads the boolean options (a
missing one reads as false) and the integer options (a missing one falls back to the
engine default). It then builds a fixed stack of decorators: locked(cached(basic)), or a
lock of either kind directly over basic, or cached(basic), or basic alone, all under a
timer in debug mode. The handle is modelled as a tree
(`Handles.Db`). The storage engine adapter is a `Basic` leaf carrying its constructor
arguments. Each decorator is a constructor that owns its inner handle. Java `null` is the
leaf `Null(cause)`, where the cause says which error line the factory logged. The
collaborators the factory calls but does not define are fields of an `Env` value that
every factory function receives:

- `DBVendor.fromString`;
- `Integer.parseInt` on a present value;
- the table of loadable drivers;
- the LevelDB and RocksDB default constants.

`Handles.Layers` and `Handles.Base` split a handle into its list of decorators and its
leaf. `Handles.Wrap` puts them back together; the two round trips are proved
(`UnwrapWrap`, `WrapUnwrap`). `DatabaseFactory.ConfiguredLayers` reads the list of
decorators directly off the options. The factory's branching is proved to build exactly
that list, in precedence order: timing, then a lock, then a cache.

**Block details** (`BlockDetails`) holds a block, its transactions in processing order and
one execution context per transaction, aligned by index. The model covers construction
(including the null checks), slicing over `[start, stop)` and how each context is derived
from its transaction and block. That includes the energy-limit subtraction with Java
`long` wrap-around and cutting the difficulty down to its last 16 bytes. A contract
creation's context address is the contract address, as the code does it. The source
leaves open whether it should be null instead; this model does not decide that.

Three behaviours of the code are easy to miss:

- **Decorators around a null handle.** `connect` returns `null` only when no decorator
  applies; with locking, heap cache or debug timing on, the decorator is built around the
  null adapter, for example `Locked(Null)`. `DatabaseFactory.NullHandle` states exactly
  when each case happens.
- **Choice of lock.** The special lock is chosen only for LevelDB and RocksDB, and only
  when the heap cache is off (`Vendor.SelfSerializesWrites`,
  `DatabaseFactory.ConnectWithLocks`).
- **The `persistent` option.** It is declared but never read. The mock variant depends
  only on `db_type`.

`Boolean.parseBoolean` is modelled as an ASCII case-insensitive comparison with "true".
Under Java's `equalsIgnoreCase`, no other character folds to t, r, u or e, so the two
agree. `DatabaseFactory.ParseBooleanSpellings` proves that the parser accepts exactly the
sixteen mixed-case spellings.

## Model

| member | source | states |
|---|---|---|
| DatabaseFactory.GetBoolean | modDbImpl/src/org/aion/db/impl/DatabaseFactory.java:233-235 | an absent option reads as false; only a four-character value can read as true |
| DatabaseFactory.ParseBooleanSpellings | modDbImpl/src/org/aion/db/impl/DatabaseFactory.java:233-235 | the case-insensitive parser accepts a string exactly when it is one of the sixteen mixed-case spellings of "true" |
| DatabaseFactory.GetBooleanSpellings | modDbImpl/src/org/aion/db/impl/DatabaseFactory.java:233-235 | a boolean option is set exactly when the key is present and its value is a spelling of "true" |
| DatabaseFactory.GetInt | modDbImpl/src/org/aion/db/impl/DatabaseFactory.java:237-239 | an absent integer option yields the supplied default; a present one yields its parsed value |
| DatabaseFactory.ConnectBasic | modDbImpl/src/org/aion/db/impl/DatabaseFactory.java:124-205 | the result is null or an engine leaf; the leaf's vendor is the configured one and it carries the configured name and (except the in-memory mock) the configured path; the LevelDB, RocksDB and H2 leaves carry `enable_db_cache` and `enable_db_compression` as their cache and compression flags; the LevelDB and RocksDB tuning values come from `max_fd_alloc_size`, `block_size`, `write_buffer_size`, (RocksDB) `read_buffer_size` and `cache_size`, each defaulting to the engine's constant; the mocks are never null; for the other vendors a missing name gives null (MissingName) before the path is looked at, then a missing path gives null (MissingPath); a known persistent vendor gives an engine exactly when both are present; an unknown vendor gives null |
| DatabaseFactory.ConnectWithCache | modDbImpl/src/org/aion/db/impl/DatabaseFactory.java:114-121 | one cache decorator directly over the `ConnectBasic` adapter, with auto-commit and statistics read as boolean options and the maximum size passed on as the raw string |
| DatabaseFactory.ConnectWithLocks | modDbImpl/src/org/aion/db/impl/DatabaseFactory.java:99-111 | the result is a lock of one of the two kinds; it is the special lock exactly when the heap cache is off and the vendor is LevelDB or RocksDB; a cache sits under the lock exactly when the heap cache is on, and it is `connectWithCache(info)` then, the bare `connectBasic(info)` adapter otherwise; the leaf at the bottom is always `connectBasic(info)` |
| DatabaseFactory.ConnectDriver | modDbImpl/src/org/aion/db/impl/DatabaseFactory.java:211-226 | a null driver name, or one not in the driver table, gives null (DriverLoadFailed); otherwise the loaded driver's own connection is returned |
| DatabaseFactory.ConnectDebug | modDbImpl/src/org/aion/db/impl/DatabaseFactory.java:61-92 | in debug mode the result is the non-debug result wrapped exactly once in the timer; an unknown vendor without debug is the driver lookup on the `db_type` string |
| DatabaseFactory.Connect | modDbImpl/src/org/aion/db/impl/DatabaseFactory.java:57-92 | `connect(info)` is `connect(info, false)`: for a built-in vendor it is the `ConnectBasic` adapter under exactly the option-derived layers and never under a timer; an unknown vendor gives the result of the driver named by `db_type` |
| DatabaseFactory.ConnectMock | modDbImpl/src/org/aion/db/impl/DatabaseFactory.java:229-231 | `connect(name)` is a bare in-memory mock with that name and no decorators |
| DatabaseFactory.LockedCachedStack | modDbImpl/src/org/aion/db/impl/DatabaseFactory.java:71-102 | with locking and heap cache on, every built-in vendor gets the generic lock over the cache over the adapter, never the special lock |
| DatabaseFactory.LockedBasicStack | modDbImpl/src/org/aion/db/impl/DatabaseFactory.java:99-110 | with locking on and heap cache off, LevelDB and RocksDB get the special lock and every other built-in vendor the generic lock, directly over the adapter |
| DatabaseFactory.UnlockedStack | modDbImpl/src/org/aion/db/impl/DatabaseFactory.java:71-83 | with locking off no lock appears: the cache over the adapter if the heap cache is on, else the bare adapter |
| DatabaseFactory.UnknownVendorUsesDriver | modDbImpl/src/org/aion/db/impl/DatabaseFactory.java:66-68 | an unknown vendor ignores the lock and cache flags; the result is the driver registered under the `db_type` string, or null when there is none |
| DatabaseFactory.ConnectWrapsConfiguredLayers | modDbImpl/src/org/aion/db/impl/DatabaseFactory.java:61-121 | for a built-in vendor, the branching in connect builds exactly the option-derived list of decorators around the `ConnectBasic` adapter |
| DatabaseFactory.ConfiguredLayersShape | modDbImpl/src/org/aion/db/impl/DatabaseFactory.java:71-111 | the decorators are in precedence order timer, lock, cache, so there are at most three and never two locks or two caches; the timer is present iff debug; some lock iff locking; the special lock iff locking, no heap cache and a self-serialising vendor; a cache iff the heap cache is on |
| DatabaseFactory.ConnectLayers | modDbImpl/src/org/aion/db/impl/DatabaseFactory.java:61-121 | taking the result apart gives back the `ConnectBasic` adapter at the bottom and exactly the option-derived decorators above it |
| DatabaseFactory.NullHandle | modDbImpl/src/org/aion/db/impl/DatabaseFactory.java:61-156 | for a built-in vendor, the bottom of the stack is null iff a persistent engine lacks its name or path; the whole result is null iff, in addition, no decorator is asked for |
| DatabaseFactory.IgnoresUnreadOptions | modDbImpl/src/org/aion/db/impl/DatabaseFactory.java:61-205 | two property maps that agree on every option the factory reads give the same handle for a built-in vendor |
| DatabaseFactory.AbsentTuningUsesDefaults | modDbImpl/src/org/aion/db/impl/DatabaseFactory.java:158-190 | with no tuning option given, a LevelDB or RocksDB adapter carries exactly the engine's default constants |
| DatabaseFactory.MockShortcutAgrees | modDbImpl/src/org/aion/db/impl/DatabaseFactory.java:129-133 | `connect(name)` builds what `connect(info)` builds for the mock vendor with the same name and with locking and heap cache off |
| BlockDetails.SubLong | modVM/src/org/aion/vm/BlockDetails.java:119 | `long` subtraction: congruent to the exact difference modulo 2^64, and equal to it when it fits |
| BlockDetails.TruncateDifficulty | modVM/src/org/aion/vm/BlockDetails.java:138-143 | the kept difficulty is a suffix of the block difficulty, with length min(length, 16) |
| BlockDetails.TruncatedDifficultyValue | modVM/src/org/aion/vm/BlockDetails.java:138-143 | as a big-endian number, the kept difficulty is the block difficulty modulo 2^128 |
| BlockDetails.ContextOf | modVM/src/org/aion/vm/BlockDetails.java:110-162 | kind is CREATE iff the transaction creates a contract; the address is then the contract address, otherwise the destination; call data is empty for a creation, otherwise the data with null read as empty; the call value has null read as empty; origin and caller are the sender; the energy limit is the transaction limit minus the transaction cost at the block number, wrapping as a `long`; depth and flags are 0; coinbase, number, timestamp and energy limit come from the block; the difficulty is at most 16 bytes, the whole difficulty when that is short enough, else its last 16 bytes |
| BlockDetails.ConstructContexts | modVM/src/org/aion/vm/BlockDetails.java:102-108 | there is one context per transaction, and the context at index i is the one derived from transaction i and the block |
| BlockDetails.New | modVM/src/org/aion/vm/BlockDetails.java:40-51 | a null block throws first, then a null transaction list; otherwise the holder keeps the block and the transactions and its contexts are aligned with them |
| BlockDetails.Slice | modVM/src/org/aion/vm/BlockDetails.java:69-73 | slicing succeeds iff 0 <= start <= stop <= the number of transactions (and of contexts); it keeps the block and returns `transactions[start..stop]` and `contexts[start..stop]`; a negative start or a stop past the end throws IndexOutOfBounds, and a start past the stop throws IllegalArgument (as `ArrayList.subList` does); a range valid for the transactions but past the end of a shorter context list throws IndexOutOfBounds |
| BlockDetails.SlicePreservesAlignment | modVM/src/org/aion/vm/BlockDetails.java:59-73 | any in-range slice of an aligned holder succeeds and is aligned again, with equal lengths and index correspondence |
| BlockDetails.AlignedIsDetermined | modVM/src/org/aion/vm/BlockDetails.java:23-26 | the contexts of an aligned holder are determined by its block and transactions, so a slice equals what construction from the sliced transactions builds |
| BlockDetails.SliceOfSlice | modVM/src/org/aion/vm/BlockDetails.java:69-73 | slicing a slice equals slicing the original over the shifted range |
| BlockDetails.SliceWhole | modVM/src/org/aion/vm/BlockDetails.java:69-73 | the full range of an aligned holder gives back the holder itself |
| BlockDetails.ContextsShareBlock | modVM/src/org/aion/vm/BlockDetails.java:133-143 | all contexts in one holder carry the same coinbase, number, timestamp, energy limit and difficulty |

## Left out

- Storage engines (LevelDB, RocksDB, H2 MVMap, MongoDB, MockDB, PersistentMockDB): native, file and network I/O whose sources are not in this model. Each is only an `Engine` leaf carrying its constructor arguments.
- Decorator behaviour (caching, read-write locking, timing): those classes are not part of this model, and locking and timing are concurrency and clock concerns. Each decorator is a constructor in the handle tree. Whether a decorator constructor would reject a null inner handle is not modelled either.
- Reflective driver loading (`Class.forName`, `newInstance`): replaced by a table from class name to the driver's `connect`. A driver whose construction or connection throws is a table entry that returns null.
- Logging calls: side effects only. The `Null` cause records which error line was reached.
- `DBVendor.fromString`, `IDriver`, and the values of `LevelDBConstants` and `RocksDBConstants`: not part of this model. They are fields of `Env`, and every property holds for all their values.
- DatabaseFactory.GetInt: `Integer.parseInt` of a present value is the abstract `Env.parseInt`. Malformed values, which make the source throw `NumberFormatException` out of `connect`, are not modelled.
- The `check_integrity` and `persistent` option names: declared in the source but never read by the factory.
- `transactionCost`, `DataWord` construction and transaction hashing are not part of this model. The cost is a parameter. A context keeps the byte arrays handed to `DataWord`. The hash and the contract address are transaction fields.
- Null elements inside the transaction list, and a null difficulty array: both would throw `NullPointerException` while contexts are being built. The model's transactions and difficulty are never null.
- List aliasing in the holder: the constructor keeps the caller's transaction list itself, not a copy, and `getTransactions` and `getExecutionContexts` hand out the internal mutable lists; `slice` returns `subList` views that share them too. A caller that adds or removes an element afterwards breaks the class's documented invariant (equal lengths, index correspondence). The model is immutable: the getters are the fields of `Details`, and `Aligned` is proved only for holders that nobody mutates after construction.
- BlockDetails.Slice: an out-of-order range (`start > stop`) is modelled as `IllegalArgumentException`, which is what `ArrayList.subList` throws. The holder keeps whatever `List` its caller passes, and the `List.subList` contract also allows `IndexOutOfBoundsException` there (`CopyOnWriteArrayList` throws it), so the exception type for that case depends on the caller's list class.
- `modApiServer/src/module-info.java` (module wiring, no logic) and `modMcf/src/org/aion/mcf/core/IRewardsCalculator.java` (an interface with no implementation) are not part of this model.

=== FILE: block_details.dfy ===
/** The per-block holder the virtual machines receive: a block, its transactions in
    processing order, and one execution context per transaction, index-aligned. */
module BlockDetails {
  import opened Wrappers

  /** The range of a Java `long`. */
  const LongMin: int := -0x8000_0000_0000_0000
  const LongMax: int := 0x7FFF_FFFF_FFFF_FFFF

  /** A Java `long`. */
  type Int64 = x: int | LongMin <= x <= LongMax

  /** A Java `byte` array element, read unsigned. */
  type Byte = x: int | 0 <= x < 256

  type Bytes = seq<Byte>

  /** An account address, kept as its raw bytes. */
  type Address = Bytes

  /** 2^64: `long` arithmetic wraps modulo this. */
  const LongModulus: int := 0x1_0000_0000_0000_0000

  /** The most significant bytes a block difficulty keeps in a context. */
  const DifficultyBytes: nat := 16

  /** The transaction accessors the context builder reads. `value` and `data` may be null;
      the hash and the contract address are taken as given. */
  datatype Transaction = Transaction(
    hash: Bytes,
    isContractCreation: bool,
    contractAddress: Address,
    destination: Address,
    sender: Address,
    nrgPrice: Bytes,
    nrgLimit: Int64,
    value: Option<Bytes>,
    data: Option<Bytes>)

  /** The block header accessors the context builder reads. */
  datatype Block = Block(
    number: Int64,
    coinbase: Address,
    timestamp: Int64,
    nrgLimit: Int64,
    difficulty: Bytes)

  /** `ExecutionContext.CALL` and `ExecutionContext.CREATE`. */
  datatype Kind = Call | Create

  /** The arguments of a `KernelTransactionContext`, in constructor order. The value and
      difficulty words are kept as the bytes handed to the `DataWord` constructor. */
  datatype Context = Context(
    txHash: Bytes,
    address: Address,
    origin: Address,
    caller: Address,
    nrgPrice: Bytes,
    nrgLimit: Int64,
    callValue: Bytes,
    callData: Bytes,
    depth: int,
    kind: Kind,
    flags: int,
    blockCoinbase: Address,
    blockNumber: Int64,
    blockTimestamp: Int64,
    blockNrgLimit: Int64,
    blockDifficulty: Bytes)

  /** The holder: a block, its transactions and their contexts. */
  datatype Details = Details(block: Block, transactions: seq<Transaction>, contexts: seq<Context>)

  /** The exceptions construction and slicing can throw. */
  datatype Fault = NullBlock | NullTransactions | IndexOutOfBounds | IllegalArgument

  /** `transaction.transactionCost(blockNumber)`. */
  type CostModel = (Transaction, Int64) -> Int64

  // ---------------------------------------------------------------------------------
  // Arithmetic and byte helpers

  /** `a - b` on Java longs: the exact difference when it fits, else wrapped. */
  function SubLong(a: Int64, b: Int64): (r: Int64)
    ensures (a - b - r) % LongModulus == 0
    ensures LongMin <= a - b <= LongMax ==> r == a - b
  {
    var d := a - b;
    if d < LongMin then d + LongModulus
    else if d > LongMax then d - LongModulus
    else d
  }

  /** `ArrayUtils.nullToEmpty`. */
  function NullToEmpty(b: Option<Bytes>): (r: Bytes)
    ensures b.Some? ==> r == b.value
    ensures b.None? ==> r == []
  {
    b.GetOr([])
  }

  /** The difficulty bytes a context keeps: the last sixteen bytes of a longer array, the
      whole array otherwise. */
  function TruncateDifficulty(diff: Bytes): (r: Bytes)
    ensures |r| == if |diff| <= DifficultyBytes then |diff| else DifficultyBytes
    ensures diff == diff[..|diff| - |r|] + r
  {
    if |diff| > DifficultyBytes then diff[|diff| - DifficultyBytes..] else diff
  }

  /** The unsigned big-endian number a byte array denotes. */
  function BigEndian(b: Bytes): nat {
    if b == [] then 0 else BigEndian(b[..|b| - 1]) * 256 + b[|b| - 1]
  }

  function Pow256(n: nat): (r: nat)
    ensures r > 0
  {
    if n == 0 then 1 else 256 * Pow256(n - 1)
  }

  lemma {:induction false} BigEndianBound(b: Bytes)
    ensures BigEndian(b) < Pow256(|b|)
  {
    if b != [] {
      BigEndianBound(b[..|b| - 1]);
      assert BigEndian(b[..|b| - 1]) + 1 <= Pow256(|b| - 1);
      assert BigEndian(b[..|b| - 1]) * 256 + 256 <= Pow256(|b| - 1) * 256;
    }
  }

  lemma {:induction false} BigEndianAppend(p: Bytes, s: Bytes)
    ensures BigEndian(p + s) == BigEndian(p) * Pow256(|s|) + BigEndian(s)
    decreases |s|
  {
    if s == [] {
      assert p + s == p;
    } else {
      var s' := s[..|s| - 1];
      assert (p + s)[..|p + s| - 1] == p + s';
      BigEndianAppend(p, s');
      calc {
        BigEndian(p + s);
        BigEndian(p + s') * 256 + s[|s| - 1];
        (BigEndian(p) * Pow256(|s'|) + BigEndian(s')) * 256 + s[|s| - 1];
        { assert (BigEndian(p) * Pow256(|s'|)) * 256 == BigEndian(p) * (Pow256(|s'|) * 256); }
        BigEndian(p) * Pow256(|s|) + BigEndian(s);
      }
    }
  }

  lemma {:induction false} Pow256Monotone(m: nat, n: nat)
    requires m <= n
    ensures Pow256(m) <= Pow256(n)
    decreases n
  {
    if m < n {
      Pow256Monotone(m, n - 1);
    }
  }

  /** 2^128, the range of a sixteen-byte word, written out as a literal so that reductions
      modulo it stay linear; `Pow256Word` proves it equals `Pow256(DifficultyBytes)`. */
  const WordModulus: nat := 0x1_0000_0000_0000_0000_0000_0000_0000_0000

  lemma Pow256Word()
    ensures Pow256(DifficultyBytes) == WordModulus
  {
    assert Pow256(4) == 0x1_0000_0000;
    assert Pow256(8) == 0x1_0000_0000_0000_0000 by {
      assert Pow256(8) == 256 * 256 * 256 * 256 * Pow256(4);
    }
    assert Pow256(12) == 256 * 256 * 256 * 256 * Pow256(8);
    assert Pow256(16) == 256 * 256 * 256 * 256 * Pow256(12);
  }

  lemma ModOfMultiplePlus(q: nat, r: nat)
    requires r < WordModulus
    ensures (q * WordModulus + r) % WordModulus == r
  {
  }

  /** Keeping the last sixteen bytes keeps the difficulty modulo 2^128, the part of it a
      sixteen-byte word can hold. */
  lemma TruncatedDifficultyValue(diff: Bytes)
    ensures BigEndian(TruncateDifficulty(diff)) == BigEndian(diff) % WordModulus
  {
    Pow256Word();
    var r := TruncateDifficulty(diff);
    var p := diff[..|diff| - |r|];
    BigEndianAppend(p, r);
    BigEndianBound(r);
    Pow256Monotone(|r|, DifficultyBytes);
    if |diff| <= DifficultyBytes {
      assert p == [];
      ModOfMultiplePlus(0, BigEndian(r));
    } else {
      ModOfMultiplePlus(BigEndian(p), BigEndian(r));
    }
  }

  // ---------------------------------------------------------------------------------
  // Contexts

  /** The execution context of one transaction of `block`. */
  function ContextOf(tx: Transaction, block: Block, cost: CostModel): (c: Context)
    ensures c.kind == Create <==> tx.isContractCreation
    ensures c.address == if tx.isContractCreation then tx.contractAddress else tx.destination
    ensures c.kind == Create ==> c.callData == []
    ensures c.kind == Call ==> c.callData == NullToEmpty(tx.data)
    ensures c.callValue == NullToEmpty(tx.value)
    ensures c.origin == tx.sender && c.caller == tx.sender
    ensures c.txHash == tx.hash && c.nrgPrice == tx.nrgPrice
    ensures (tx.nrgLimit - cost(tx, block.number) - c.nrgLimit) % LongModulus == 0
    ensures (LongMin <= tx.nrgLimit - cost(tx, block.number) <= LongMax)
              ==> c.nrgLimit == tx.nrgLimit - cost(tx, block.number)
    ensures c.depth == 0 && c.flags == 0
    ensures c.blockCoinbase == block.coinbase && c.blockNumber == block.number
    ensures c.blockTimestamp == block.timestamp && c.blockNrgLimit == block.nrgLimit
    ensures |c.blockDifficulty| <= DifficultyBytes
    ensures |block.difficulty| <= DifficultyBytes ==> c.blockDifficulty == block.difficulty
    ensures |block.difficulty| > DifficultyBytes ==>
              c.blockDifficulty == block.difficulty[|block.difficulty| - DifficultyBytes..]
  {
    var create := tx.isContractCreation;
    Context(
      tx.hash,
      if create then tx.contractAddress else tx.destination,
      tx.sender,
      tx.sender,
      tx.nrgPrice,
      SubLong(tx.nrgLimit, cost(tx, block.number)),
      NullToEmpty(tx.value),
      if create then [] else NullToEmpty(tx.data),
      0,
      if create then Create else Call,
      0,
      block.coinbase,
      block.number,
      block.timestamp,
      block.nrgLimit,
      TruncateDifficulty(block.difficulty))
  }

  /** The holder's invariant: one context per transaction, the context at index `i` being
      the one derived from the transaction at index `i` and the block. */
  ghost predicate Aligned(d: Details, cost: CostModel) {
    && |d.contexts| == |d.transactions|
    && forall i :: 0 <= i < |d.transactions| ==> d.contexts[i] == ContextOf(d.transactions[i], d.block, cost)
  }

  /** One context per transaction, in transaction order. */
  method ConstructContexts(transactions: seq<Transaction>, block: Block, cost: CostModel)
    returns (contexts: seq<Context>)
    ensures Aligned(Details(block, transactions, contexts), cost)
  {
    contexts := [];
    for i := 0 to |transactions|
      invariant |contexts| == i
      invariant forall j :: 0 <= j < i ==> contexts[j] == ContextOf(transactions[j], block, cost)
    {
      contexts := contexts + [ContextOf(transactions[i], block, cost)];
    }
  }

  /** The public constructor: a null block or transaction list throws, otherwise the
      holder keeps both and builds the aligned contexts. */
  method New(block: Option<Block>, transactions: Option<seq<Transaction>>, cost: CostModel)
    returns (r: Result<Details, Fault>)
    ensures block.None? ==> r == Failure(NullBlock)
    ensures block.Some? && transactions.None? ==> r == Failure(NullTransactions)
    ensures block.Some? && transactions.Some? ==>
              && r.Success?
              && r.value.block == block.value
              && r.value.transactions == transactions.value
              && Aligned(r.value, cost)
  {
    if block.None? {
      return Failure(NullBlock);
    }
    if transactions.None? {
      return Failure(NullTransactions);
    }
    var contexts := ConstructContexts(transactions.value, block.value, cost);
    r := Success(Details(block.value, transactions.value, contexts));
  }

  /** The holder restricted to the transactions at indices [start, stop) and their
      contexts, for the same block. The bounds are checked as `ArrayList.subList` checks them,
      first on the transactions and then on the contexts. */
  function Slice(d: Details, start: int, stop: int): (r: Result<Details, Fault>)
    ensures r.Success? <==> 0 <= start <= stop <= |d.transactions| && stop <= |d.contexts|
    ensures r.Success? ==>
              && r.value.block == d.block
              && r.value.transactions == d.transactions[start..stop]
              && r.value.contexts == d.contexts[start..stop]
    ensures start < 0 || stop > |d.transactions| ==> r == Failure(IndexOutOfBounds)
    ensures 0 <= start && stop <= |d.transactions| && start > stop ==> r == Failure(IllegalArgument)
    ensures 0 <= start <= stop <= |d.transactions| && stop > |d.contexts| ==> r == Failure(IndexOutOfBounds)
  {
    if start < 0 || stop > |d.transactions| then Failure(IndexOutOfBounds)
    else if start > stop then Failure(IllegalArgument)
    else if stop > |d.contexts| then Failure(IndexOutOfBounds)
    else Success(Details(d.block, d.transactions[start..stop], d.contexts[start..stop]))
  }

  /** Slicing keeps the alignment of transactions and contexts. */
  lemma SlicePreservesAlignment(d: Details, start: int, stop: int, cost: CostModel)
    requires Aligned(d, cost)
    requires 0 <= start <= stop <= |d.transactions|
    ensures Slice(d, start, stop).Success?
    ensures Aligned(Slice(d, start, stop).value, cost)
  {
  }

  /** The contexts of an aligned holder are determined by its block and transactions, so a
      slice holds exactly what construction from the sliced transactions would build. */
  lemma AlignedIsDetermined(d: Details, d': Details, cost: CostModel)
    requires Aligned(d, cost) && Aligned(d', cost)
    requires d.block == d'.block && d.transactions == d'.transactions
    ensures d == d'
  {
  }

  /** Slicing a slice is slicing the original at the shifted range. */
  lemma SliceOfSlice(d: Details, start: int, stop: int, start': int, stop': int)
    requires Slice(d, start, stop).Success?
    requires Slice(Slice(d, start, stop).value, start', stop').Success?
    ensures Slice(Slice(d, start, stop).value, start', stop') == Slice(d, start + start', start + stop')
  {
    var s := Slice(d, start, stop).value;
    assert s.transactions[start'..stop'] == d.transactions[start + start'..start + stop'];
    assert s.contexts[start'..stop'] == d.contexts[start + start'..start + stop'];
  }

  /** The full range gives back the holder itself. */
  lemma SliceWhole(d: Details, cost: CostModel)
    requires Aligned(d, cost)
    ensures Slice(d, 0, |d.transactions|) == Success(d)
  {
    assert d.transactions[0..|d.transactions|] == d.transactions;
    assert d.contexts[0..|d.contexts|] == d.contexts;
  }

  /** All contexts of a holder see the same block header values. */
  lemma ContextsShareBlock(d: Details, cost: CostModel, i: int, j: int)
    requires Aligned(d, cost)
    requires 0 <= i < |d.contexts| && 0 <= j < |d.contexts|
    ensures d.contexts[i].blockCoinbase == d.contexts[j].blockCoinbase
    ensures d.contexts[i].blockNumber == d.contexts[j].blockNumber
    ensures d.contexts[i].blockTimestamp == d.contexts[j].blockTimestamp
    ensures d.contexts[i].blockNrgLimit == d.contexts[j].blockNrgLimit
    ensures d.contexts[i].blockDifficulty == d.contexts[j].blockDifficulty
  {
  }
}

=== FILE: database_factory.dfy ===
/** The database factory: from a string-to-string property map it picks a vendor, checks
    the name and path, reads the boolean and integer options and builds the fixed stack
    timed(locked or special-locked(cached(basic))). */
module DatabaseFactory {
  import opened Wrappers
  import opened Handles

  /** A `java.util.Properties`: an absent key reads as null. */
  type Props = map<string, string>

  // The option names the factory reads.
  const DB_TYPE: string := "db_type"
  const DB_NAME: string := "db_name"
  const DB_PATH: string := "db_path"
  const ENABLE_AUTO_COMMIT: string := "enable_auto_commit"
  const ENABLE_DB_CACHE: string := "enable_db_cache"
  const ENABLE_DB_COMPRESSION: string := "enable_db_compression"
  const DB_CACHE_SIZE: string := "cache_size"
  const ENABLE_HEAP_CACHE: string := "enable_heap_cache"
  const ENABLE_HEAP_CACHE_STATS: string := "enable_heap_cache_stats"
  const MAX_HEAP_CACHE_SIZE: string := "max_heap_cache_size"
  const ENABLE_LOCKING: string := "enable_locking"
  const MAX_FD_ALLOC: string := "max_fd_alloc_size"
  const BLOCK_SIZE: string := "block_size"
  const WRITE_BUFFER_SIZE: string := "write_buffer_size"
  const READ_BUFFER_SIZE: string := "read_buffer_size"

  /** Every option a built-in vendor's handle can depend on. */
  const ReadKeys: set<string> := {
    DB_TYPE, DB_NAME, DB_PATH, ENABLE_AUTO_COMMIT, ENABLE_DB_CACHE, ENABLE_DB_COMPRESSION,
    DB_CACHE_SIZE, ENABLE_HEAP_CACHE, ENABLE_HEAP_CACHE_STATS, MAX_HEAP_CACHE_SIZE,
    ENABLE_LOCKING, MAX_FD_ALLOC, BLOCK_SIZE, WRITE_BUFFER_SIZE, READ_BUFFER_SIZE
  }

  /** The collaborators the factory calls but which are not part of this model. */
  datatype Env = Env(
    /** `DBVendor.fromString`, applied to the (possibly null) `db_type` value. */
    vendorOf: Option<string> -> Vendor,
    /** `Integer.parseInt` on a value that is present in the properties. */
    parseInt: string -> Int32,
    /** The drivers that `Class.forName` can load, by class name, each as its `connect`. */
    drivers: map<string, Props -> Db>,
    /** `LevelDBConstants`: MAX_OPEN_FILES, BLOCK_SIZE, WRITE_BUFFER_SIZE, CACHE_SIZE. */
    levelDefaults: LevelTuning,
    /** `RocksDBConstants`: the same four plus READ_BUFFER_SIZE. */
    rocksDefaults: RocksTuning)

  /** `info.getProperty(key)`. */
  function Lookup(info: Props, key: string): Option<string> {
    if key in info then Some(info[key]) else None
  }

  /** The vendor named by the `db_type` option. */
  function VendorOf(env: Env, info: Props): Vendor {
    env.vendorOf(Lookup(info, DB_TYPE))
  }

  // ---------------------------------------------------------------------------------
  // Option parsing

  /** Upper-case ASCII letters to lower case; every other character unchanged. */
  function LowerAscii(c: char): char {
    if 'A' <= c <= 'Z' then (c as int - 'A' as int + 'a' as int) as char else c
  }

  /** `Boolean.parseBoolean`: true exactly for a non-null "true", ignoring case. */
  predicate ParseBoolean(s: Option<string>) {
    && s.Some?
    && |s.value| == 4
    && LowerAscii(s.value[0]) == 't'
    && LowerAscii(s.value[1]) == 'r'
    && LowerAscii(s.value[2]) == 'u'
    && LowerAscii(s.value[3]) == 'e'
  }

  /** The sixteen spellings of "true" in mixed case. */
  ghost const TrueSpellings: set<string> :=
    set a, b, c, d | a in "tT" && b in "rR" && c in "uU" && d in "eE" :: [a, b, c, d]

  /** Only the letter itself and its upper-case form lower to a given lower-case letter. */
  lemma LowerAsciiInverse(c: char, lower: char)
    requires 'a' <= lower <= 'z'
    requires LowerAscii(c) == lower
    ensures c == lower || c as int == lower as int - 32
  {
  }

  lemma SpellingsMember(a: char, b: char, c: char, d: char)
    requires a in "tT" && b in "rR" && c in "uU" && d in "eE"
    ensures [a, b, c, d] in TrueSpellings
  {
  }

  /** The character-wise parser accepts exactly the sixteen spellings. */
  lemma ParseBooleanSpellings(s: string)
    ensures ParseBoolean(Some(s)) <==> s in TrueSpellings
  {
    if ParseBoolean(Some(s)) {
      AcceptedIsSpelling(s);
    }
    if s in TrueSpellings {
      SpellingIsAccepted(s);
    }
  }

  lemma AcceptedIsSpelling(s: string)
    requires ParseBoolean(Some(s))
    ensures s in TrueSpellings
  {
    LowerAsciiInverse(s[0], 't');
    LowerAsciiInverse(s[1], 'r');
    LowerAsciiInverse(s[2], 'u');
    LowerAsciiInverse(s[3], 'e');
    SpellingsMember(s[0], s[1], s[2], s[3]);
    assert s == [s[0], s[1], s[2], s[3]];
  }

  lemma SpellingIsAccepted(s: string)
    requires s in TrueSpellings
    ensures ParseBoolean(Some(s))
  {
  }

  /** A boolean option: false when absent, and true only for a four-letter value. */
  function GetBoolean(info: Props, key: string): (r: bool)
    ensures r ==> key in info && |info[key]| == 4
  {
    ParseBoolean(Lookup(info, key))
  }

  /** A boolean option is set exactly when it is present and one of the sixteen spellings. */
  lemma GetBooleanSpellings(info: Props, key: string)
    ensures GetBoolean(info, key) <==> key in info && info[key] in TrueSpellings
  {
    if key in info {
      ParseBooleanSpellings(info[key]);
    }
  }

  /** An integer option: the parsed value when present, `default` when absent (the source
      parses the decimal rendering of `default`, which gives `default` back). */
  function GetInt(env: Env, info: Props, key: string, default: Int32): (r: Int32)
    ensures key !in info ==> r == default
    ensures key in info ==> r == env.parseInt(info[key])
  {
    if key in info then env.parseInt(info[key]) else default
  }

  // ---------------------------------------------------------------------------------
  // Building the stack

  /** The bare engine adapter for the configured vendor, or null. */
  function ConnectBasic(env: Env, info: Props): (r: Db)
    ensures r.Null? || r.Basic?
    ensures r.Basic? ==> r.engine.Vendor() == VendorOf(env, info)
    ensures r.Basic? ==> r.engine.Name() == Lookup(info, DB_NAME)
    ensures r.Basic? && !r.engine.Mock? ==> r.engine.Path() == Lookup(info, DB_PATH)
    ensures r.Basic? && (r.engine.Level? || r.engine.Rocks? || r.engine.H2MvMap?) ==>
              && r.engine.dbCache == GetBoolean(info, ENABLE_DB_CACHE)
              && r.engine.compression == GetBoolean(info, ENABLE_DB_COMPRESSION)
    ensures r.Basic? && r.engine.Level? ==> r.engine.level == LevelTuning(
              GetInt(env, info, MAX_FD_ALLOC, env.levelDefaults.maxOpenFiles),
              GetInt(env, info, BLOCK_SIZE, env.levelDefaults.blockSize),
              GetInt(env, info, WRITE_BUFFER_SIZE, env.levelDefaults.writeBufferSize),
              GetInt(env, info, DB_CACHE_SIZE, env.levelDefaults.cacheSize))
    ensures r.Basic? && r.engine.Rocks? ==> r.engine.rocks == RocksTuning(
              GetInt(env, info, MAX_FD_ALLOC, env.rocksDefaults.maxOpenFiles),
              GetInt(env, info, BLOCK_SIZE, env.rocksDefaults.blockSize),
              GetInt(env, info, WRITE_BUFFER_SIZE, env.rocksDefaults.writeBufferSize),
              GetInt(env, info, READ_BUFFER_SIZE, env.rocksDefaults.readBufferSize),
              GetInt(env, info, DB_CACHE_SIZE, env.rocksDefaults.cacheSize))
    ensures VendorOf(env, info).IsMock() ==> r.Basic?
    ensures !VendorOf(env, info).IsMock() && DB_NAME !in info ==> r == Null(MissingName)
    ensures !VendorOf(env, info).IsMock() && DB_NAME in info && DB_PATH !in info ==> r == Null(MissingPath)
    ensures VendorOf(env, info) != Unknown && !VendorOf(env, info).IsMock() ==>
              (r.Basic? <==> DB_NAME in info && DB_PATH in info)
    ensures VendorOf(env, info) == Unknown ==> r.Null?
  {
    var vendor := VendorOf(env, info);
    var name := Lookup(info, DB_NAME);
    if vendor == MockDb then
      Basic(Mock(name))
    else
      var path := Lookup(info, DB_PATH);
      if vendor == PersistentMockDb then
        Basic(PersistentMock(name, path))
      else
        var dbCache := GetBoolean(info, ENABLE_DB_CACHE);
        var compression := GetBoolean(info, ENABLE_DB_COMPRESSION);
        if name.None? then
          Null(MissingName)
        else if path.None? then
          Null(MissingPath)
        else
          match vendor
          case LevelDb =>
            var d := env.levelDefaults;
            Basic(Level(name.value, path.value, dbCache, compression, LevelTuning(
              GetInt(env, info, MAX_FD_ALLOC, d.maxOpenFiles),
              GetInt(env, info, BLOCK_SIZE, d.blockSize),
              GetInt(env, info, WRITE_BUFFER_SIZE, d.writeBufferSize),
              GetInt(env, info, DB_CACHE_SIZE, d.cacheSize))))
          case RocksDb =>
            var d := env.rocksDefaults;
            Basic(Rocks(name.value, path.value, dbCache, compression, RocksTuning(
              GetInt(env, info, MAX_FD_ALLOC, d.maxOpenFiles),
              GetInt(env, info, BLOCK_SIZE, d.blockSize),
              GetInt(env, info, WRITE_BUFFER_SIZE, d.writeBufferSize),
              GetInt(env, info, READ_BUFFER_SIZE, d.readBufferSize),
              GetInt(env, info, DB_CACHE_SIZE, d.cacheSize))))
          case H2 =>
            Basic(H2MvMap(name.value, path.value, dbCache, compression))
          case MongoDb =>
            Basic(Mongo(name.value, path.value))
          case _ =>
            Null(InvalidVendor)
  }

  /** The adapter under a heap cache configured from the options. */
  function ConnectWithCache(env: Env, info: Props): (r: Db)
    ensures Base(r) == ConnectBasic(env, info)
    ensures Layers(r) == [CachedLayer(
              GetBoolean(info, ENABLE_AUTO_COMMIT),
              Lookup(info, MAX_HEAP_CACHE_SIZE),
              GetBoolean(info, ENABLE_HEAP_CACHE_STATS))]
  {
    Cached(
      ConnectBasic(env, info),
      GetBoolean(info, ENABLE_AUTO_COMMIT),
      Lookup(info, MAX_HEAP_CACHE_SIZE),
      GetBoolean(info, ENABLE_HEAP_CACHE_STATS))
  }

  /** The locked stack: the special lock only for self-serialising engines without a heap
      cache, the generic lock otherwise. */
  function ConnectWithLocks(env: Env, info: Props): (r: Db)
    ensures r.Locked? || r.SpecialLocked?
    ensures r.SpecialLocked? <==> !GetBoolean(info, ENABLE_HEAP_CACHE) && VendorOf(env, info).SelfSerializesWrites()
    ensures r.inner.Cached? <==> GetBoolean(info, ENABLE_HEAP_CACHE)
    ensures Base(r) == ConnectBasic(env, info)
    ensures GetBoolean(info, ENABLE_HEAP_CACHE) ==> r.inner == ConnectWithCache(env, info)
    ensures !GetBoolean(info, ENABLE_HEAP_CACHE) ==> r.inner == ConnectBasic(env, info)
  {
    if GetBoolean(info, ENABLE_HEAP_CACHE) then
      Locked(ConnectWithCache(env, info))
    else if VendorOf(env, info).SelfSerializesWrites() then
      SpecialLocked(ConnectBasic(env, info))
    else
      Locked(ConnectBasic(env, info))
  }

  /** `connect(driverName, info)`: load the named driver and let it connect; null when
      the name is null or no such driver can be loaded. */
  function ConnectDriver(env: Env, driverName: Option<string>, info: Props): (r: Db)
    ensures driverName.None? || driverName.value !in env.drivers ==> r == Null(DriverLoadFailed)
    ensures driverName.Some? && driverName.value in env.drivers ==> r == env.drivers[driverName.value](info)
  {
    if driverName.Some? && driverName.value in env.drivers then
      env.drivers[driverName.value](info)
    else
      Null(DriverLoadFailed)
  }

  /** `connect(info, debug)`. For a built-in vendor the result is the engine adapter under
      a well-ordered stack of decorators that contains the timing layer exactly when
      `debug` is set; an unknown vendor is delegated to a driver of that name. */
  function ConnectDebug(env: Env, info: Props, debug: bool): (r: Db)
    ensures debug ==> r == Timed(ConnectDebug(env, info, false))
    ensures VendorOf(env, info) == Unknown && !debug ==>
              r == ConnectDriver(env, Lookup(info, DB_TYPE), info)
  {
    var db :=
      if VendorOf(env, info) == Unknown then
        ConnectDriver(env, Lookup(info, DB_TYPE), info)
      else if GetBoolean(info, ENABLE_LOCKING) then
        ConnectWithLocks(env, info)
      else if GetBoolean(info, ENABLE_HEAP_CACHE) then
        ConnectWithCache(env, info)
      else
        ConnectBasic(env, info);
    if debug then Timed(db) else db
  }

  /** `connect(info)`: the non-debug connection. For a built-in vendor it is the adapter
      under exactly the layers the options ask for, none of them a timer; an unknown vendor
      is handed to the driver named by `db_type`. */
  function Connect(env: Env, info: Props): (r: Db)
    ensures r == ConnectDebug(env, info, false)
    ensures VendorOf(env, info) != Unknown ==>
              && Base(r) == ConnectBasic(env, info)
              && Layers(r) == ConfiguredLayers(env, info, false)
              && TimedLayer !in Layers(r)
    ensures VendorOf(env, info) == Unknown ==> r == ConnectDriver(env, Lookup(info, DB_TYPE), info)
  {
    if VendorOf(env, info) != Unknown then
      ConnectLayers(env, info, false);
      ConfiguredLayersShape(env, info, false);
      ConnectDebug(env, info, false)
    else
      ConnectDebug(env, info, false)
  }

  /** `connect(name)`: a bare in-memory mock, no decorators. */
  function ConnectMock(name: Option<string>): (r: Db)
    ensures r.Basic? && Layers(r) == []
    ensures r.engine.Vendor() == MockDb && r.engine.Name() == name
  {
    Basic(Mock(name))
  }

  // ---------------------------------------------------------------------------------
  // Properties of the composition

  /** With locking and heap cache on, every built-in vendor gets the generic lock over the
      cache over the adapter; the special lock is never used above a cache. */
  lemma LockedCachedStack(env: Env, info: Props)
    requires VendorOf(env, info) != Unknown
    requires GetBoolean(info, ENABLE_LOCKING) && GetBoolean(info, ENABLE_HEAP_CACHE)
    ensures Connect(env, info) == Locked(Cached(
              ConnectBasic(env, info),
              GetBoolean(info, ENABLE_AUTO_COMMIT),
              Lookup(info, MAX_HEAP_CACHE_SIZE),
              GetBoolean(info, ENABLE_HEAP_CACHE_STATS)))
  {
  }

  /** With locking on and heap cache off, LevelDB and RocksDB get the special lock and every
      other built-in vendor the generic one, directly over the adapter. */
  lemma LockedBasicStack(env: Env, info: Props)
    requires VendorOf(env, info) != Unknown
    requires GetBoolean(info, ENABLE_LOCKING) && !GetBoolean(info, ENABLE_HEAP_CACHE)
    ensures VendorOf(env, info) in {LevelDb, RocksDb} ==> Connect(env, info) == SpecialLocked(ConnectBasic(env, info))
    ensures VendorOf(env, info) !in {LevelDb, RocksDb} ==> Connect(env, info) == Locked(ConnectBasic(env, info))
  {
  }

  /** With locking off there is no lock: the cache over the adapter, or the bare adapter. */
  lemma UnlockedStack(env: Env, info: Props)
    requires VendorOf(env, info) != Unknown
    requires !GetBoolean(info, ENABLE_LOCKING)
    ensures GetBoolean(info, ENABLE_HEAP_CACHE) ==> Connect(env, info) == Cached(
              ConnectBasic(env, info),
              GetBoolean(info, ENABLE_AUTO_COMMIT),
              Lookup(info, MAX_HEAP_CACHE_SIZE),
              GetBoolean(info, ENABLE_HEAP_CACHE_STATS))
    ensures !GetBoolean(info, ENABLE_HEAP_CACHE) ==> Connect(env, info) == ConnectBasic(env, info)
  {
  }

  /** An unknown vendor ignores the lock and cache flags: the result is whatever the driver
      named by `db_type` returns, or null when there is no such driver. */
  lemma UnknownVendorUsesDriver(env: Env, info: Props)
    requires VendorOf(env, info) == Unknown
    ensures DB_TYPE in info && info[DB_TYPE] in env.drivers ==>
              Connect(env, info) == env.drivers[info[DB_TYPE]](info)
    ensures DB_TYPE !in info || info[DB_TYPE] !in env.drivers ==>
              Connect(env, info) == Null(DriverLoadFailed)
  {
  }

  /** The decorators a built-in vendor's handle should carry, outermost first, read off
      the options one by one: timing if debugging, a lock if locking (the special one only
      for a self-serialising engine with no heap cache), a cache if the heap cache is on. */
  function ConfiguredLayers(env: Env, info: Props, debug: bool): seq<Layer> {
    var heap := GetBoolean(info, ENABLE_HEAP_CACHE);
    var lock := if !heap && VendorOf(env, info).SelfSerializesWrites() then SpecialLockedLayer else LockedLayer;
    var cache := CachedLayer(
      GetBoolean(info, ENABLE_AUTO_COMMIT),
      Lookup(info, MAX_HEAP_CACHE_SIZE),
      GetBoolean(info, ENABLE_HEAP_CACHE_STATS));
    (if debug then [TimedLayer] else [])
      + (if GetBoolean(info, ENABLE_LOCKING) then [lock] else [])
      + (if heap then [cache] else [])
  }

  /** The branching in `connect` builds exactly the configured layers over the adapter. */
  lemma {:induction false} ConnectWrapsConfiguredLayers(env: Env, info: Props, debug: bool)
    requires VendorOf(env, info) != Unknown
    ensures ConnectDebug(env, info, debug) == Wrap(ConfiguredLayers(env, info, debug), ConnectBasic(env, info))
  {
    var basic := ConnectBasic(env, info);
    var heap := GetBoolean(info, ENABLE_HEAP_CACHE);
    var lock := if !heap && VendorOf(env, info).SelfSerializesWrites() then SpecialLockedLayer else LockedLayer;
    var cache := CachedLayer(
      GetBoolean(info, ENABLE_AUTO_COMMIT),
      Lookup(info, MAX_HEAP_CACHE_SIZE),
      GetBoolean(info, ENABLE_HEAP_CACHE_STATS));
    var t := if debug then [TimedLayer] else [];
    var l := if GetBoolean(info, ENABLE_LOCKING) then [lock] else [];
    var c := if heap then [cache] else [];
    assert ConfiguredLayers(env, info, debug) == t + l + c;
    WrapAppend(t + l, c, basic);
    WrapAppend(t, l, Wrap(c, basic));
  }

  /** The configured layers are in precedence order, so at most one of each kind, and each
      is present exactly when its option asks for it. */
  lemma ConfiguredLayersShape(env: Env, info: Props, debug: bool)
    ensures WellOrdered(ConfiguredLayers(env, info, debug))
    ensures |ConfiguredLayers(env, info, debug)| <= 3
    ensures TimedLayer in ConfiguredLayers(env, info, debug) <==> debug
    ensures (LockedLayer in ConfiguredLayers(env, info, debug) ||
             SpecialLockedLayer in ConfiguredLayers(env, info, debug))
            <==> GetBoolean(info, ENABLE_LOCKING)
    ensures SpecialLockedLayer in ConfiguredLayers(env, info, debug)
            <==> GetBoolean(info, ENABLE_LOCKING) && !GetBoolean(info, ENABLE_HEAP_CACHE)
                 && VendorOf(env, info).SelfSerializesWrites()
    ensures (exists l :: l in ConfiguredLayers(env, info, debug) && l.CachedLayer?)
            <==> GetBoolean(info, ENABLE_HEAP_CACHE)
  {
    var ls := ConfiguredLayers(env, info, debug);
    WellOrderedBound(ls);
    if GetBoolean(info, ENABLE_HEAP_CACHE) {
      assert ls[|ls| - 1] in ls && ls[|ls| - 1].CachedLayer?;
    }
  }

  /** For a built-in vendor the result is the adapter from `ConnectBasic` under exactly the
      configured layers. */
  lemma ConnectLayers(env: Env, info: Props, debug: bool)
    requires VendorOf(env, info) != Unknown
    ensures Base(ConnectDebug(env, info, debug)) == ConnectBasic(env, info)
    ensures Layers(ConnectDebug(env, info, debug)) == ConfiguredLayers(env, info, debug)
  {
    ConnectWrapsConfiguredLayers(env, info, debug);
    UnwrapWrap(ConfiguredLayers(env, info, debug), ConnectBasic(env, info));
  }

  /** The factory's null is visible only when no decorator is asked for: the adapter is
      null exactly for a persistent engine missing its name or path, and any decorator
      around it hides that null. */
  lemma NullHandle(env: Env, info: Props, debug: bool)
    requires VendorOf(env, info) != Unknown
    ensures Base(ConnectDebug(env, info, debug)).Null? <==>
              !VendorOf(env, info).IsMock() && (DB_NAME !in info || DB_PATH !in info)
    ensures ConnectDebug(env, info, debug).Null? <==>
              && !debug && !GetBoolean(info, ENABLE_LOCKING) && !GetBoolean(info, ENABLE_HEAP_CACHE)
              && !VendorOf(env, info).IsMock() && (DB_NAME !in info || DB_PATH !in info)
  {
    ConnectLayers(env, info, debug);
    ConfiguredLayersShape(env, info, debug);
  }

  /** Options the factory does not read make no difference for a built-in vendor. */
  lemma IgnoresUnreadOptions(env: Env, info: Props, info': Props, debug: bool)
    requires VendorOf(env, info) != Unknown
    requires forall k :: k in ReadKeys ==> Lookup(info, k) == Lookup(info', k)
    ensures ConnectDebug(env, info, debug) == ConnectDebug(env, info', debug)
  {
    assert Lookup(info, DB_TYPE) == Lookup(info', DB_TYPE);
    assert Lookup(info, ENABLE_LOCKING) == Lookup(info', ENABLE_LOCKING);
    assert Lookup(info, ENABLE_HEAP_CACHE) == Lookup(info', ENABLE_HEAP_CACHE);
    assert ConnectBasic(env, info) == ConnectBasic(env, info') by {
      forall k | k in ReadKeys
        ensures GetInt(env, info, k, 0) == GetInt(env, info', k, 0)
        ensures GetBoolean(info, k) == GetBoolean(info', k)
      {
        assert Lookup(info, k) == Lookup(info', k);
      }
    }
  }

  /** When none of the tuning options is given, LevelDB and RocksDB get the defaults. */
  lemma AbsentTuningUsesDefaults(env: Env, info: Props)
    requires MAX_FD_ALLOC !in info && BLOCK_SIZE !in info && WRITE_BUFFER_SIZE !in info
    requires READ_BUFFER_SIZE !in info && DB_CACHE_SIZE !in info
    ensures ConnectBasic(env, info).Basic? && ConnectBasic(env, info).engine.Level? ==>
              ConnectBasic(env, info).engine.level == env.levelDefaults
    ensures ConnectBasic(env, info).Basic? && ConnectBasic(env, info).engine.Rocks? ==>
              ConnectBasic(env, info).engine.rocks == env.rocksDefaults
  {
  }

  /** `connect(name)` builds what `connect(info)` builds for the mock vendor with neither
      locking nor heap cache. */
  lemma MockShortcutAgrees(env: Env, info: Props)
    requires VendorOf(env, info) == MockDb
    requires !GetBoolean(info, ENABLE_LOCKING) && !GetBoolean(info, ENABLE_HEAP_CACHE)
    ensures Connect(env, info) == ConnectMock(Lookup(info, DB_NAME))
  {
  }
}

=== FILE: handles.dfy ===
/** The database handles the factory hands out, as a tree: a storage engine leaf at the
    bottom, wrapped in zero or more decorators. Decorator behaviour (caching, locking,
    timing) is not modelled; a decorator is only the constructor that owns its inner
    handle. */
module Handles {
  import opened Wrappers

  /** The database vendors the factory distinguishes. */
  datatype Vendor = MockDb | PersistentMockDb | LevelDb | RocksDb | H2 | MongoDb | Unknown {

    /** The two in-memory mocks are built without any name or path check. */
    predicate IsMock() {
      this == MockDb || this == PersistentMockDb
    }

    /** Engines whose native layer serialises writes itself; they get the special lock. */
    predicate SelfSerializesWrites() {
      this == LevelDb || this == RocksDb
    }
  }

  /** A Java `int`. */
  type Int32 = x: int | -0x8000_0000 <= x < 0x8000_0000

  /** LevelDB tuning, in the order the LevelDB constructor takes it. */
  datatype LevelTuning = LevelTuning(maxOpenFiles: Int32, blockSize: Int32, writeBufferSize: Int32, cacheSize: Int32)

  /** RocksDB tuning, in the order the RocksDB wrapper constructor takes it. */
  datatype RocksTuning = RocksTuning(maxOpenFiles: Int32, blockSize: Int32, writeBufferSize: Int32, readBufferSize: Int32, cacheSize: Int32)

  /** One storage engine adapter, carrying the arguments it was constructed with. */
  datatype Engine =
    | Mock(mockName: Option<string>)
    | PersistentMock(mockName: Option<string>, mockPath: Option<string>)
    | Level(name: string, path: string, dbCache: bool, compression: bool, level: LevelTuning)
    | Rocks(name: string, path: string, dbCache: bool, compression: bool, rocks: RocksTuning)
    | H2MvMap(name: string, path: string, dbCache: bool, compression: bool)
    | Mongo(name: string, path: string)
  {
    /** The vendor this adapter implements. */
    function Vendor(): Vendor {
      match this
      case Mock(_) => MockDb
      case PersistentMock(_, _) => PersistentMockDb
      case Level(_, _, _, _, _) => LevelDb
      case Rocks(_, _, _, _, _) => RocksDb
      case H2MvMap(_, _, _, _) => H2
      case Mongo(_, _) => MongoDb
    }

    /** The database name the adapter was given (the mocks may have been given null). */
    function Name(): Option<string> {
      if Mock? || PersistentMock? then mockName else Some(name)
    }

    /** The database path the adapter was given, if it takes one. */
    function Path(): Option<string> {
      match this
      case Mock(_) => None
      case PersistentMock(_, p) => p
      case _ => Some(path)
    }
  }

  /** Why the factory produced `null`: each cause is one of its error log lines. */
  datatype Cause = MissingName | MissingPath | InvalidVendor | DriverLoadFailed

  /** A handle as built by the factory. `Null` is the Java null reference. */
  datatype Db =
    | Null(cause: Cause)
    | Basic(engine: Engine)
    | Driver(driverName: string)
    | Cached(inner: Db, autoCommit: bool, maxHeapCacheSize: Option<string>, stats: bool)
    | Locked(inner: Db)
    | SpecialLocked(inner: Db)
    | Timed(inner: Db)
  {
    /** Not a decorator: a null, an engine adapter or a handle from an external driver. */
    predicate IsLeaf() {
      Null? || Basic? || Driver?
    }
  }

  /** One decorator, detached from the handle it wraps. */
  datatype Layer =
    | TimedLayer
    | LockedLayer
    | SpecialLockedLayer
    | CachedLayer(autoCommit: bool, maxHeapCacheSize: Option<string>, stats: bool)

  /** Puts the decorator `l` around `d`. */
  function Apply(l: Layer, d: Db): (r: Db)
    ensures !r.IsLeaf() && r.inner == d
  {
    match l
    case TimedLayer => Timed(d)
    case LockedLayer => Locked(d)
    case SpecialLockedLayer => SpecialLocked(d)
    case CachedLayer(a, m, s) => Cached(d, a, m, s)
  }

  /** The decorators of `d`, outermost first. */
  function Layers(d: Db): seq<Layer> {
    match d
    case Timed(inner) => [TimedLayer] + Layers(inner)
    case Locked(inner) => [LockedLayer] + Layers(inner)
    case SpecialLocked(inner) => [SpecialLockedLayer] + Layers(inner)
    case Cached(inner, a, m, s) => [CachedLayer(a, m, s)] + Layers(inner)
    case _ => []
  }

  /** The handle at the bottom of `d`, under every decorator. */
  function Base(d: Db): (r: Db)
    ensures r.IsLeaf()
  {
    if d.IsLeaf() then d else Base(d.inner)
  }

  /** Stacks `ls` (outermost first) on top of `base`. */
  function Wrap(ls: seq<Layer>, base: Db): Db
    decreases |ls|
  {
    if ls == [] then base else Apply(ls[0], Wrap(ls[1..], base))
  }

  /** Peeling a stack built on a leaf gives back exactly its layers and its leaf. */
  lemma {:induction false} UnwrapWrap(ls: seq<Layer>, base: Db)
    requires base.IsLeaf()
    ensures Layers(Wrap(ls, base)) == ls
    ensures Base(Wrap(ls, base)) == base
    decreases |ls|
  {
    if ls != [] {
      UnwrapWrap(ls[1..], base);
      assert [ls[0]] + ls[1..] == ls;
    }
  }

  /** Stacking two runs of layers is stacking the outer run on the inner stack. */
  lemma {:induction false} WrapAppend(outer: seq<Layer>, innerLayers: seq<Layer>, base: Db)
    ensures Wrap(outer + innerLayers, base) == Wrap(outer, Wrap(innerLayers, base))
    decreases |outer|
  {
    if outer == [] {
      assert outer + innerLayers == innerLayers;
    } else {
      WrapAppend(outer[1..], innerLayers, base);
      assert (outer + innerLayers)[1..] == outer[1..] + innerLayers;
    }
  }

  /** Every handle is its layers stacked on its base. */
  lemma {:induction false} WrapUnwrap(d: Db)
    ensures Wrap(Layers(d), Base(d)) == d
  {
    if !d.IsLeaf() {
      WrapUnwrap(d.inner);
      var ls := Layers(d);
      assert ls[1..] == Layers(d.inner);
    }
  }

  /** Decorator precedence: timing outside locking outside caching. */
  function Rank(l: Layer): nat {
    match l
    case TimedLayer => 0
    case LockedLayer => 1
    case SpecialLockedLayer => 1
    case CachedLayer(_, _, _) => 2
  }

  /** The layers appear in strictly increasing precedence rank. */
  ghost predicate WellOrdered(ls: seq<Layer>) {
    forall i, j :: 0 <= i < j < |ls| ==> Rank(ls[i]) < Rank(ls[j])
  }

  /** A well-ordered stack has at most one decorator of each kind, hence at most three,
      and no two locks of either variant. */
  lemma {:induction false} WellOrderedBound(ls: seq<Layer>)
    requires WellOrdered(ls)
    ensures |ls| <= 3
    ensures forall i, j :: 0 <= i < j < |ls| ==> Rank(ls[i]) != Rank(ls[j])
  {
    if |ls| > 0 {
      RankAtLeastIndex(ls, |ls| - 1);
    }
  }

  /** Ranks strictly increase along a well-ordered stack, so the k-th has rank at least k. */
  lemma {:induction false} RankAtLeastIndex(ls: seq<Layer>, k: nat)
    requires WellOrdered(ls)
    requires k < |ls|
    ensures Rank(ls[k]) >= k
  {
    if k > 0 {
      RankAtLeastIndex(ls, k - 1);
    }
  }
}

=== FILE: wrappers.dfy ===
/** Plain optional and either-or wrappers used across the model: `Option` stands for a Java
    reference that may be null, `Result` for a computation that may throw. */
module Wrappers {

  /** A value that may be absent (a Java `null`). */
  datatype Option<+T> = None | Some(value: T) {

    /** The wrapped value, or `default` when absent. */
    function GetOr(default: T): T {
      match this
      case Some(v) => v
      case None => default
    }
  }

  /** Either a value or the exception a Java call would have thrown. */
  datatype Result<+R, +E> = Success(value: R) | Failure(error: E)
}
